=== FILE: README.md ===
# ToJSON tree projector, modelled in Dafny

This project models the tree projector of `ToJSON.java`. The projector walks a parsed Java compilation unit and builds a nested key/value document. Each declaration is grouped by kind and keeps its source span.

- `parseCU` walks a list of sibling nodes in order. It sends each node to at most one handler: package, import, class or interface, field, variable declarator, constructor or method.
- A simple-name leaf is skipped silently. Any other kind is skipped after a printed warning.
- Each handler updates the scope map it is given, using one of four policies:
  - **overwrite:** `package`, `classes[name]`, and a declarator's own name;
  - **create-then-append:** the `imports` block and the `constructors` list;
  - **per-name append:** `methods[name]`, so overloads accumulate;
  - **recursion into a child map:** a type's own map, and the scope's shared `fields` map.

The model is functional:

- `Document.Json` is the document. It has keyed maps, ordered lists, strings, parser values the projector does not render itself, kept opaque (`JRaw`), positions read with `get()` (`JPos`), and optional name spans stored unread (`JOptPos`).
- `Syntax.Node` is the syntax tree. Names and the renderings of modifiers, types, parameters and type parameters are opaque strings.
- Every handler is a function from a scope to `Result<Doc>`. Every exception in the source becomes an `Err`, and the `Err` aborts the whole walk. In the source these exceptions are `NoSuchElementException` from `get()`, `JSONException` from a typed getter, and `ClassCastException` from the declarator cast.
- The source mutates the scope in place. No scope object is stored in two places, and any exception ends the run. So returning the updated scope computes the same document.
- A declarator reads its modifiers from its parent node. That parent is always the node whose children are being dispatched. The model passes it down as `Syntax.Owner` (compilation unit, type, or field with its modifiers).

Modules:

- `Document` (`document.dfy`): the document, errors, and the document library's getters.
- `Syntax` (`syntax.dfy`): nodes and owners.
- `Projector` (`projector.dfy`): `parseCU`, the handlers, and the entry point.
- `Traversal` (`traversal.dfy`): walk order, inert skipped nodes, and the abort on a missing span.
- `Accumulation` (`accumulation.dfy`): the append policies.
- `LastWins` (`last_wins.dfy`): the overwrite policies.
- `Nesting` (`nesting.dfy`): what a type's own map holds for its children.
- `Completeness` (`completeness.dfy`): a well-formed tree is projected, not rejected.
- `Scenarios` (`scenarios.dfy`): exact documents for small inputs.

Two import quirks of the code are modelled as written:

- The first import's `list` entry is `[name node, name begin, name end]` (ToJSON.java:83-87). Each later import appends only its name's `toString()` (ToJSON.java:75). `Scenarios.ThreeImports` states the resulting document.
- A later import reads only its end position (ToJSON.java:76), while the first import also reads its begin (ToJSON.java:91). A later import without a begin is therefore accepted (`Scenarios.LaterImportNeedsOnlyItsEnd`).

## Model

| member | source | states |
|---|---|---|
| `Projector.ParseCU` | src/main/java/ToJSON.java:29-53 | A completed walk leaves every scope key that no sibling's handler writes exactly as it was. Every sibling had the spans its handler reads: every package, type, constructor and method its begin and end, every import its end, and, in a scope that had no `imports` block, the import that creates it also its begin. Every declarator had a field parent. |
| `Projector.Dispatch` | src/main/java/ToJSON.java:33-51 | A simple name or an unrecognised kind returns the scope unchanged. Any other node changes at most the one key its kind owns (`KeyOf`). |
| `Projector.ProcessPackage` | src/main/java/ToJSON.java:55-66 | Succeeds exactly when the declaration has begin and end, and otherwise fails with MissingPosition. It then overwrites `package` with the name text, the name's own optional span, and begin/end, whatever was there. Nothing else changes. |
| `Projector.ProcessImport` | src/main/java/ToJSON.java:68-95 | With no `imports` block: succeeds exactly when begin and end exist, otherwise fails with MissingPosition, and creates a one-entry list holding [name node, name begin, name end] with this import's begin/end. With a block: succeeds exactly when the block is a map holding a list and the import has an end; otherwise fails with NotAnObject(`imports`), NotAnArray(`list`) or MissingPosition, in that order of checking. It then appends the name text and replaces `end`. `begin` and every other block key stay. No other scope key changes. |
| `Projector.ClassBody` | src/main/java/ToJSON.java:106-115 | Fails with MissingPosition when the type lacks begin or end. With both spans it succeeds whenever its children walk cleanly from the header. The type's map holds its begin, end, `isInterface` as "true"/"false", raw modifiers, and extended/implemented renderings; its children cannot disturb these. It holds no other key except those its children write, and it does not depend on the enclosing scope. What the children write there is stated by the `Nesting` lemmas and `Accumulation.NestedOverloads`. |
| `Projector.ProcessClassOrInterface` | src/main/java/ToJSON.java:97-116 | Succeeds exactly when `classes` is absent or a map and the type's own map can be built. Otherwise it fails with NotAnObject(`classes`), or else with the error of building the type's own map. It then makes `classes` a map and sets the entry under the type's name to the type's own map, overwriting an earlier one. Other class entries and other scope keys are unchanged. So the type's fields and methods never reach this scope's `fields` or `methods`. |
| `Projector.ProcessField` | src/main/java/ToJSON.java:118-128 | Fails with NotAnObject(`fields`) when `fields` holds something other than a map. Otherwise it succeeds exactly when the field's children, dispatched into the `fields` map with the field as their owner, walk cleanly. It leaves `fields` a map, keeps the entries no declarator writes, and changes no other scope key. |
| `Projector.ProcessVariable` | src/main/java/ToJSON.java:130-137 | Succeeds exactly when the parent is a field declaration; otherwise it fails with InvalidDeclaratorOwner. On success it overwrites the entry under the declarator's name with the field's modifiers and the declared type. Nothing else changes. |
| `Projector.ProcessConstructor` | src/main/java/ToJSON.java:139-157 | Succeeds exactly when `constructors` is absent or a list and the spans exist. Otherwise it fails with NotAnArray(`constructors`), or else with MissingPosition. It then appends one record (modifiers, parameters, begin, end) after the existing ones. Nothing else changes. |
| `Projector.ProcessMethod` | src/main/java/ToJSON.java:159-186 | Succeeds exactly when `methods` is absent or a map, the list under the name is absent or a list, and the spans exist. Otherwise it fails with NotAnObject(`methods`), else NotAnArray(name), else MissingPosition. It then appends one record to that name's list. Lists under other names and other scope keys are unchanged. |
| `Projector.Project` | src/main/java/Main.java:18-20 | A completed projection of a compilation unit holds no top-level declarator, and its first import had a begin. Its root has no key that no top-level node writes. |
| `Traversal.WalkInOrder` | src/main/java/ToJSON.java:30-32 | Walking `a + b` equals walking `a`, then walking `b` from the resulting scope. A failure in `a` is the failure of the whole. |
| `Traversal.SkippedNodesAreInert` | src/main/java/ToJSON.java:47-51 | Removing every simple name and unrecognised node from a sibling list gives the same result. |
| `Traversal.WalkStopsAtFirstFailure` | src/main/java/ToJSON.java:29-52 | When the siblings before `n` walk cleanly and `n`'s handler fails, the whole walk fails with `n`'s error, whatever follows `n`. |
| `Traversal.MissingSpanAborts` | src/main/java/ToJSON.java:63-180 | A sibling that gets past its getters and then lacks a span its handler reads with `get()` ends the whole walk with MissingPosition. |
| `Traversal.CompletedWalkIsWalkable` | src/main/java/ToJSON.java:63-180 | A walk that completes met no node, at any depth it reached, lacking a span its handler reads: every package, type, constructor and method had begin and end, every import its end, and the first import of each type also its begin. It met no declarator outside a field. So any such node aborts the whole walk. |
| `Completeness.WellFormedProjects` | src/main/java/Main.java:18-20 | A compilation unit is projected, not rejected, when every node has the spans its handler reads, every declarator sits directly in a field, every field holds only declarators and skipped leaves, and the import that opens each import block has a begin. |
| `Completeness.WellFormedWalks` | src/main/java/ToJSON.java:29-53 | Outside a field, a well-formed sibling list walks cleanly from any scope whose collections have the shapes the getters expect, and leaves them so shaped. |
| `Completeness.FieldOfDeclaratorsProjects` | src/main/java/ToJSON.java:118-137 | A field holding only declarators and skipped leaves is projected whenever `fields` is absent or a map. |
| `Accumulation.ImportsAccumulate` | src/main/java/ToJSON.java:68-95 | From a scope without imports, `imports` exists exactly when some import was seen. The list is the first import's [name, name begin, name end] followed by the text of each later import, in order, one entry per import. `begin` is the first import's begin and `end` the last import's end. |
| `Accumulation.OverloadsAccumulate` | src/main/java/ToJSON.java:159-186 | The list under method name `m` is its earlier contents followed by one record per method named `m`, in source order. Its length grows by the number of such methods. It exists exactly when it existed before or one was seen. |
| `Accumulation.NestedOverloads` | src/main/java/ToJSON.java:109-115 | A type's own map records under `m` exactly the type's own methods named `m`, in order, and has an entry under `m` exactly when the type declares such a method. Methods of a nested type are not among this type's overloads; `Nesting.NestedClasses` places the nested type's whole map under this type's `classes`. |
| `Accumulation.ConstructorsAccumulate` | src/main/java/ToJSON.java:139-157 | `constructors` is its earlier contents followed by one record per constructor, in source order. Its length grows by the number of constructors. It exists exactly when it existed before or one was seen. |
| `LastWins.ClassesLastWin` | src/main/java/ToJSON.java:97-107 | The entry under type name `c` is the map of the last type named `c` in the list. With no such type, it is what it was. |
| `LastWins.SameNamedClasses` | src/main/java/ToJSON.java:106-107 | Of two sibling types sharing a name, only the second one's map remains. |
| `LastWins.PackageLastWins` | src/main/java/ToJSON.java:55-66 | `package` describes the last package declaration. With none, it is what it was. |
| `LastWins.DeclaratorsLastWin` | src/main/java/ToJSON.java:130-137 | Under a field, the entry under `v` is the record of the last declarator named `v`, carrying the field's modifiers. With none, it is what it was. |
| `LastWins.FieldDeclaratorsLastWin` | src/main/java/ToJSON.java:118-137 | A field declaration writes its declarators into the scope's shared `fields` map, the last of a name winning, with the field's modifiers. Other `fields` entries stay. |
| `LastWins.LastClassNamed` | src/main/java/ToJSON.java:107 | The chosen type is named `c`. None is chosen exactly when no type is named `c`. |
| `LastWins.LastClassNamedIsLast` | src/main/java/ToJSON.java:107 | The chosen type sits at an index with no later type named `c`. |
| `LastWins.LastWhereIsLast` | src/main/java/ToJSON.java:29-53 | The node `LastWhere` picks is followed by no other node satisfying the same test, so it is the last in walk order. |
| `LastWins.FieldsLastWin` | src/main/java/ToJSON.java:118-137 | All field declarations of a scope share one `fields` map. The entry under `v` is the record of the last declarator named `v` across all of them, with its own field's modifiers. With none, it is what it was. |
| `Nesting.NestedConstructors` | src/main/java/ToJSON.java:115-157 | A type's own map lists exactly the type's constructors, one record each in source order. It has `constructors` exactly when the type declares one. |
| `Nesting.NestedClasses` | src/main/java/ToJSON.java:97-115 | A nested type lands in its enclosing type's own `classes` map: the entry under `k` is the map of the last direct child type named `k`. With no such child there is no entry. |
| `Nesting.NestedFields` | src/main/java/ToJSON.java:115-137 | A type's own `fields` map holds, under `v`, the record of the last declarator named `v` among the type's field declarations, with that field's modifiers. With no such declarator there is no entry. |
| `Nesting.NestedImports` | src/main/java/ToJSON.java:68-115 | Imports among a type's children build the type's own import block, as at the compilation unit. |
| `Nesting.NestedPackage` | src/main/java/ToJSON.java:55-115 | A package declaration among a type's children writes the type's own `package` key. With none, the type's map has no `package`. |
| `Scenarios.ThreeImports` | src/main/java/ToJSON.java:71-92 | The exact document for imports `a.b.C`, `d.e.F`, `g.H`. |
| `Scenarios.LaterImportNeedsOnlyItsEnd` | src/main/java/ToJSON.java:76-92 | A later import without a begin is accepted. The same import placed first aborts with MissingPosition. |
| `Scenarios.DeclaratorInsideTypeFails` | src/main/java/ToJSON.java:135 | A declarator placed directly in a type aborts the projection with InvalidDeclaratorOwner. |

## Left out

- The warning `println` for unrecognised kinds is console I/O and is not modelled. The model keeps only its effect on the document, which is none.
- Reading the source file, `JavaParser.parse`, and printing the document (Main.java) are I/O and a foreign call. `Project` takes the compilation unit's children as input instead.
- The document library's serialisation, key order and pretty-printing are not modelled. In particular, how it renders a bare parser object, an `Optional` or a modifier set is left out; these are kept as `JRaw` text and `JOptPos` values.
- Node payloads (names, modifier sets, `toString()` of types, parameters and type parameters) are opaque strings. The parser that produces them is not part of this model.
- CompletedWalkIsWalkable: inside a field declaration's children it does not state the first-import begin rule. Whether the shared `fields` map already holds an `imports` key depends on earlier siblings, which a per-node predicate cannot see. `ParseCU` states the rule for any scope it starts from, and a field's children are never imports in Java.
- Completeness.WellFormedProjects: it covers only trees whose field declarations hold declarators and skipped leaves, which is how the parser builds them. Another child of a field would meet a `fields` map whose entries are declarator records, and the model does not say whether such a tree projects. The lemma states one direction; a completed projection's own guarantees are `CompletedWalkIsWalkable` and `Project`.
- LastWins.FieldsLastWin and Nesting.NestedFields: they assume that inside each field declaration only declarators write key `v`, which holds for every field the parser builds. A field holding, say, a package declaration would write its `package` key into the shared `fields` map, and these lemmas do not describe that entry.
- Which error a single node with several problems reports follows the source's evaluation order inside its handler; the handler contracts state it for the getters and spans. The walk reports the first failing sibling's error (`Traversal.WalkStopsAtFirstFailure`); no lemma ranks errors across nesting levels beyond that.
- Sockets.java is only the sample input the program reads and is not part of this model.

=== FILE: accumulation.dfy ===
/** The append policies: imports, constructors and same-named methods
    accumulate in source order instead of overwriting one another. Each
    reference definition below reads the sibling list directly, without
    walking it; the lemmas say that the walk agrees with it. */
module Accumulation {
  import opened Document
  import opened Syntax
  import opened Projector
  import opened Traversal

  /** No declarator among `nodes` is named `k`. Declarators write the key
      of their own name, so at a field's scope one named like a collection
      key would overwrite that collection. */
  predicate NoDeclaratorNamed(nodes: seq<Node>, k: string) {
    forall i :: 0 <= i < |nodes| ==> nodes[i].VariableDecl? ==> nodes[i].name != k
  }

  /** The import declarations among `nodes`, in source order. */
  function ImportNodes(nodes: seq<Node>): (r: seq<Node>)
    ensures forall i :: 0 <= i < |r| ==> r[i].ImportDecl?
  {
    if nodes == [] then []
    else
      var last := nodes[|nodes| - 1];
      ImportNodes(nodes[..|nodes| - 1]) + (if last.ImportDecl? then [last] else [])
  }

  /** The text entries later imports contribute to the list. */
  function NameTexts(imports: seq<Node>): seq<Json>
    requires forall i :: 0 <= i < |imports| ==> imports[i].ImportDecl?
  {
    seq(|imports|, i requires 0 <= i < |imports| => JStr(imports[i].name))
  }

  /** The import block of scope `d` is what the imports `imports` build:
      absent when there is none; otherwise a list holding the first import
      as [name, name begin, name end] followed by the text of every later
      one, one entry per import, with the first import's begin and the last
      import's end. */
  predicate ImportsDescribed(d: Doc, imports: seq<Node>)
    requires forall i :: 0 <= i < |imports| ==> imports[i].ImportDecl?
  {
    && ("imports" in d <==> imports != [])
    && (imports != [] ==>
          && ImportBlock(d["imports"])
          && imports[0].begin.Some? && imports[|imports| - 1].end.Some?
          && d["imports"].fields["list"].items
             == [FirstImportEntry(imports[0])] + NameTexts(imports[1..])
          && |d["imports"].fields["list"].items| == |imports|
          && Member(d["imports"].fields, "begin") == Some(JPos(imports[0].begin.value))
          && Member(d["imports"].fields, "end") == Some(JPos(imports[|imports| - 1].end.value)))
  }

  /** Starting from a scope without imports, the walk leaves the import
      block the scope's own import declarations describe. */
  lemma {:induction false} ImportsAccumulate(head: Doc, nodes: seq<Node>, owner: Owner)
    requires "imports" !in head
    requires NoDeclaratorNamed(nodes, "imports")
    requires ParseCU(head, nodes, owner).Ok?
    ensures ImportsDescribed(ParseCU(head, nodes, owner).value, ImportNodes(nodes))
    decreases |nodes|
  {
    if nodes != [] {
      var prefix, last := nodes[..|nodes| - 1], nodes[|nodes| - 1];
      WalkLast(head, nodes, owner);
      ImportsAccumulate(head, prefix, owner);
      var before := ParseCU(head, prefix, owner).value;
      var d := ParseCU(head, nodes, owner).value;
      var earlier := ImportNodes(prefix);
      assert Dispatch(before, last, owner) == Ok(d);
      if last.ImportDecl? {
        assert ImportNodes(nodes) == earlier + [last];
        if earlier == [] {
          FirstImport(before, last, d);
        } else {
          LaterImport(before, earlier, last, d);
        }
      } else {
        assert KeyOf(last) != Some("imports");
        assert Member(d, "imports") == Member(before, "imports");
        assert ImportNodes(nodes) == earlier;
      }
    }
  }

  lemma FirstImport(before: Doc, n: Node, d: Doc)
    requires n.ImportDecl? && "imports" !in before
    requires ProcessImport(before, n) == Ok(d)
    ensures ImportsDescribed(d, [n])
  {
    assert [n][1..] == [];
  }

  lemma LaterImport(before: Doc, earlier: seq<Node>, n: Node, d: Doc)
    requires n.ImportDecl? && earlier != []
    requires forall i :: 0 <= i < |earlier| ==> earlier[i].ImportDecl?
    requires ImportsDescribed(before, earlier)
    requires ProcessImport(before, n) == Ok(d)
    ensures ImportsDescribed(d, earlier + [n])
  {
    var imports := earlier + [n];
    assert imports[1..] == earlier[1..] + [n];
    assert NameTexts(imports[1..]) == NameTexts(earlier[1..]) + [JStr(n.name)];
  }

  /** The method declarations named `m` among `nodes`. */
  function MethodCount(nodes: seq<Node>, m: string): nat {
    if nodes == [] then 0
    else
      var last := nodes[|nodes| - 1];
      MethodCount(nodes[..|nodes| - 1], m) + (if last.MethodDecl? && last.name == m then 1 else 0)
  }

  /** The detail records of the methods named `m`, in source order. */
  function OverloadsIn(nodes: seq<Node>, m: string): seq<Json> {
    if nodes == [] then []
    else
      var last := nodes[|nodes| - 1];
      OverloadsIn(nodes[..|nodes| - 1], m) +
      (if last.MethodDecl? && last.name == m && last.begin.Some? && last.end.Some?
       then [MethodDetail(last)] else [])
  }

  /** Overload accumulation: every method declaration named `m` appends one
      record to the list under `m`, in source order; the list exists once
      one such method is seen. Only the scope's own declarations count: a
      method inside a nested type lands in that type's map, not here. */
  lemma {:induction false} OverloadsAccumulate(head: Doc, nodes: seq<Node>, owner: Owner, m: string)
    requires NoDeclaratorNamed(nodes, "methods")
    requires ParseCU(head, nodes, owner).Ok?
    ensures var d := ParseCU(head, nodes, owner).value;
      && Overloads(d, m) == Overloads(head, m) + OverloadsIn(nodes, m)
      && |OverloadsIn(nodes, m)| == MethodCount(nodes, m)
      && (Inner(d, "methods", m).Some? <==> Inner(head, "methods", m).Some? || MethodCount(nodes, m) > 0)
    decreases |nodes|
  {
    if nodes != [] {
      var prefix, last := nodes[..|nodes| - 1], nodes[|nodes| - 1];
      WalkLast(head, nodes, owner);
      OverloadsAccumulate(head, prefix, owner, m);
      var before := ParseCU(head, prefix, owner).value;
      assert !last.VariableDecl? || last.name != "methods";
      OverloadStep(before, last, owner, m);
    }
  }

  /** One step of OverloadsAccumulate: dispatching one node. */
  lemma OverloadStep(before: Doc, n: Node, owner: Owner, m: string)
    requires !n.VariableDecl? || n.name != "methods"
    requires Dispatch(before, n, owner).Ok?
    ensures var d := Dispatch(before, n, owner).value;
      && Overloads(d, m) == Overloads(before, m) + OverloadsIn([n], m)
      && (Inner(d, "methods", m).Some? <==> Inner(before, "methods", m).Some? || MethodCount([n], m) > 0)
  {
    var d := Dispatch(before, n, owner).value;
    assert [n][..0] == [];
    if n.MethodDecl? && n.name == m {
      assert ProcessMethod(before, n) == Ok(d);
    } else if n.MethodDecl? {
      assert ProcessMethod(before, n) == Ok(d);
      assert Inner(d, "methods", m) == Inner(before, "methods", m);
    } else {
      assert KeyOf(n) != Some("methods");
      assert Member(d, "methods") == Member(before, "methods");
      assert Inner(d, "methods", m) == Inner(before, "methods", m);
    }
  }

  /** The constructor declarations among `nodes`. */
  function ConstructorCount(nodes: seq<Node>): nat {
    if nodes == [] then 0
    else ConstructorCount(nodes[..|nodes| - 1]) + (if nodes[|nodes| - 1].ConstructorDecl? then 1 else 0)
  }

  /** The detail records of the constructors, in source order. */
  function ConstructorsIn(nodes: seq<Node>): seq<Json> {
    if nodes == [] then []
    else
      var last := nodes[|nodes| - 1];
      ConstructorsIn(nodes[..|nodes| - 1]) +
      (if last.ConstructorDecl? && last.begin.Some? && last.end.Some?
       then [ConstructorDetail(last)] else [])
  }

  /** Every constructor appends exactly one record, in source order, with no
      merging by signature; the list exists once one constructor is seen. */
  lemma {:induction false} ConstructorsAccumulate(head: Doc, nodes: seq<Node>, owner: Owner)
    requires NoDeclaratorNamed(nodes, "constructors")
    requires ParseCU(head, nodes, owner).Ok?
    ensures var d := ParseCU(head, nodes, owner).value;
      && Constructors(d) == Constructors(head) + ConstructorsIn(nodes)
      && |ConstructorsIn(nodes)| == ConstructorCount(nodes)
      && ("constructors" in d <==> "constructors" in head || ConstructorCount(nodes) > 0)
    decreases |nodes|
  {
    if nodes != [] {
      var prefix, last := nodes[..|nodes| - 1], nodes[|nodes| - 1];
      WalkLast(head, nodes, owner);
      ConstructorsAccumulate(head, prefix, owner);
      var before := ParseCU(head, prefix, owner).value;
      assert !last.VariableDecl? || last.name != "constructors";
      ConstructorStep(before, last, owner);
    }
  }

  /** One step of ConstructorsAccumulate: dispatching one node. */
  lemma ConstructorStep(before: Doc, n: Node, owner: Owner)
    requires !n.VariableDecl? || n.name != "constructors"
    requires Dispatch(before, n, owner).Ok?
    ensures var d := Dispatch(before, n, owner).value;
      && Constructors(d) == Constructors(before) + ConstructorsIn([n])
      && ("constructors" in d <==> "constructors" in before || ConstructorCount([n]) > 0)
  {
    var d := Dispatch(before, n, owner).value;
    assert [n][..0] == [];
    if n.ConstructorDecl? {
      assert ProcessConstructor(before, n) == Ok(d);
    } else {
      assert KeyOf(n) != Some("constructors");
      assert Member(d, "constructors") == Member(before, "constructors");
    }
  }

  /** Nesting fidelity: the overloads a type's own map records under `m` are
      exactly those of the type's own method declarations, in source order;
      the enclosing scope records only its own (see OverloadsAccumulate). */
  lemma NestedOverloads(c: Node, m: string)
    requires c.ClassDecl? && ClassBody(c).Ok?
    ensures Overloads(ClassBody(c).value, m) == OverloadsIn(c.children, m)
    ensures Inner(ClassBody(c).value, "methods", m).Some? <==> MethodCount(c.children, m) > 0
  {
    var header := ClassHeader(c, c.begin.value, c.end.value);
    assert ParseCU(header, c.children, ClassOwner).Ok?;
    assert NoDeclaratorNamed(c.children, "methods") by {
      forall i | 0 <= i < |c.children|
        ensures c.children[i].VariableDecl? ==> c.children[i].name != "methods"
      {
        assert Accepted(c.children[i], ClassOwner);
      }
    }
    OverloadsAccumulate(header, c.children, ClassOwner, m);
  }
}

=== FILE: completeness.dfy ===
/** The converse of the walk's abort facts: a well-formed tree is projected,
    not rejected. A tree is well formed when every node carries the spans
    its handler reads, every declarator sits directly in a field, a field
    holds only declarators and leaves the dispatcher skips, and the import
    that opens each import block has a begin. */
module Completeness {
  import opened Document
  import opened Syntax
  import opened Projector

  /** The children a field declaration may hold: its declarators, and the
      name and modifier leaves the dispatcher skips. */
  predicate FieldMember(n: Node) {
    n.VariableDecl? || n.SimpleName? || n.Unhandled?
  }

  predicate WellFormed(n: Node, owner: Owner)
    decreases Size(n), 0
  {
    && Accepted(n, owner)
    && match n
       case ClassDecl(_, _, _, _, _, _, _, children) =>
         AllWellFormed(children, ClassOwner) && FirstImportBegins(children)
       case FieldDecl(_, children) => forall i :: 0 <= i < |children| ==> FieldMember(children[i])
       case _ => true
  }

  predicate AllWellFormed(nodes: seq<Node>, owner: Owner)
    decreases SizeOf(nodes), 1
  {
    nodes == [] || (WellFormed(nodes[0], owner) && AllWellFormed(nodes[1..], owner))
  }

  /** The shape every getter of the handlers expects of a scope: the import
      block is a map holding a list, `classes`, `fields` and `methods` are
      maps, every overload entry is a list, and `constructors` is a list. */
  predicate Shaped(d: Doc) {
    && ("imports" in d ==> ImportBlock(d["imports"]))
    && ("classes" in d ==> d["classes"].JObj?)
    && ("fields" in d ==> d["fields"].JObj?)
    && ("constructors" in d ==> d["constructors"].JArr?)
    && ("methods" in d ==>
          && d["methods"].JObj?
          && forall m :: m in d["methods"].fields ==> d["methods"].fields[m].JArr?)
  }

  /** A field's declarators and skipped leaves always walk cleanly: each
      declarator only overwrites the entry under its own name. */
  lemma {:induction false} FieldMembersWalk(fields: Doc, nodes: seq<Node>, modifiers: string)
    requires forall i :: 0 <= i < |nodes| ==> FieldMember(nodes[i])
    ensures ParseCU(fields, nodes, FieldOwner(modifiers)).Ok?
    decreases |nodes|
  {
    if nodes != [] {
      var next := Dispatch(fields, nodes[0], FieldOwner(modifiers)).value;
      FieldMembersWalk(next, nodes[1..], modifiers);
    }
  }

  /** A field declaration holding only declarators and skipped leaves is
      projected whenever `fields` is absent or a map. */
  lemma FieldOfDeclaratorsProjects(head: Doc, n: Node)
    requires n.FieldDecl?
    requires forall i :: 0 <= i < |n.children| ==> FieldMember(n.children[i])
    requires "fields" in head ==> head["fields"].JObj?
    ensures ProcessField(head, n).Ok?
  {
    FieldMembersWalk(ObjectOrEmpty(head, "fields").value, n.children, n.modifiers);
  }

  /** Dropping a first sibling that leaves `imports` alone keeps the
      first-import rule for the rest. */
  lemma FirstImportTail(nodes: seq<Node>)
    requires nodes != [] && KeyOf(nodes[0]) != Some("imports")
    requires FirstImportBegins(nodes)
    ensures FirstImportBegins(nodes[1..])
  {
    forall i | 0 <= i < |nodes| - 1 && nodes[1..][i].ImportDecl? && Untouched(nodes[1..][..i], "imports")
      ensures nodes[1..][i].begin.Some?
    {
      assert nodes[..i + 1] == [nodes[0]] + nodes[1..][..i];
      assert nodes[..i + 1][0] == nodes[0];
      assert Untouched(nodes[..i + 1], "imports");
      assert nodes[i + 1] == nodes[1..][i];
    }
  }

  /** A well-formed sibling list, outside a field, walks cleanly from any
      shaped scope and leaves it shaped. */
  lemma {:induction false} WellFormedWalks(head: Doc, nodes: seq<Node>, owner: Owner)
    requires !owner.FieldOwner?
    requires Shaped(head)
    requires AllWellFormed(nodes, owner)
    requires "imports" !in head ==> FirstImportBegins(nodes)
    ensures ParseCU(head, nodes, owner).Ok?
    ensures Shaped(ParseCU(head, nodes, owner).value)
    decreases SizeOf(nodes), 1
  {
    if nodes != [] {
      var n := nodes[0];
      assert "imports" !in head && n.ImportDecl? ==> nodes[..0] == [];
      WellFormedDispatches(head, n, owner);
      var next := Dispatch(head, n, owner).value;
      if "imports" !in next {
        assert KeyOf(n) != Some("imports");
        FirstImportTail(nodes);
      }
      WellFormedWalks(next, nodes[1..], owner);
    }
  }

  /** One well-formed node, outside a field, is dispatched cleanly from a
      shaped scope and leaves it shaped. */
  lemma {:induction false} WellFormedDispatches(head: Doc, n: Node, owner: Owner)
    requires !owner.FieldOwner?
    requires Shaped(head)
    requires WellFormed(n, owner)
    requires n.ImportDecl? && "imports" !in head ==> n.begin.Some?
    ensures Dispatch(head, n, owner).Ok?
    ensures Shaped(Dispatch(head, n, owner).value)
    decreases Size(n), 0
  {
    match n
    case PackageDecl(_, _, _, _, _) => PackageKeepsShape(head, n);
    case ImportDecl(_, _, _, _, _) => ImportKeepsShape(head, n);
    case ClassDecl(_, _, _, _, _, _, _, children) =>
      WellFormedWalks(ClassHeader(n, n.begin.value, n.end.value), children, ClassOwner);
      ClassKeepsShape(head, n);
    case FieldDecl(_, _) =>
      FieldOfDeclaratorsProjects(head, n);
      FieldKeepsShape(head, n);
    case VariableDecl(_, _) =>
    case ConstructorDecl(_, _, _, _) => ConstructorKeepsShape(head, n);
    case MethodDecl(_, _, _, _, _, _) => MethodKeepsShape(head, n);
    case SimpleName =>
    case Unhandled(_) =>
  }

  lemma PackageKeepsShape(head: Doc, n: Node)
    requires n.PackageDecl? && n.begin.Some? && n.end.Some? && Shaped(head)
    ensures ProcessPackage(head, n).Ok? && Shaped(ProcessPackage(head, n).value)
  {
    var d := ProcessPackage(head, n).value;
    assert forall k :: k != "package" ==> Member(d, k) == Member(head, k);
  }

  lemma ImportKeepsShape(head: Doc, n: Node)
    requires n.ImportDecl? && n.end.Some? && ("imports" !in head ==> n.begin.Some?) && Shaped(head)
    ensures ProcessImport(head, n).Ok? && Shaped(ProcessImport(head, n).value)
  {
    var d := ProcessImport(head, n).value;
    assert forall k :: k != "imports" ==> Member(d, k) == Member(head, k);
  }

  lemma ClassKeepsShape(head: Doc, n: Node)
    requires n.ClassDecl? && ClassBody(n).Ok? && Shaped(head)
    ensures ProcessClassOrInterface(head, n).Ok? && Shaped(ProcessClassOrInterface(head, n).value)
  {
    var d := ProcessClassOrInterface(head, n).value;
    assert forall k :: k != "classes" ==> Member(d, k) == Member(head, k);
  }

  lemma FieldKeepsShape(head: Doc, n: Node)
    requires n.FieldDecl? && ProcessField(head, n).Ok? && Shaped(head)
    ensures Shaped(ProcessField(head, n).value)
  {
    var d := ProcessField(head, n).value;
    assert forall k :: k != "fields" ==> Member(d, k) == Member(head, k);
  }

  lemma ConstructorKeepsShape(head: Doc, n: Node)
    requires n.ConstructorDecl? && n.begin.Some? && n.end.Some? && Shaped(head)
    ensures ProcessConstructor(head, n).Ok? && Shaped(ProcessConstructor(head, n).value)
  {
    var d := ProcessConstructor(head, n).value;
    assert forall k :: k != "constructors" ==> Member(d, k) == Member(head, k);
  }

  lemma MethodKeepsShape(head: Doc, n: Node)
    requires n.MethodDecl? && n.begin.Some? && n.end.Some? && Shaped(head)
    ensures ProcessMethod(head, n).Ok? && Shaped(ProcessMethod(head, n).value)
  {
    var d := ProcessMethod(head, n).value;
    assert forall k :: k != "methods" ==> Member(d, k) == Member(head, k);
    forall m | m in d["methods"].fields
      ensures d["methods"].fields[m].JArr?
    {
      assert Inner(d, "methods", m).Some?;
      if m != n.name {
        assert Inner(d, "methods", m) == Inner(head, "methods", m);
      }
    }
  }

  /** A well-formed compilation unit is projected: the projection of a unit
      whose nodes carry their spans, whose declarators sit in fields, and
      whose first import has a begin does not fail. */
  lemma WellFormedProjects(unit: seq<Node>)
    requires AllWellFormed(unit, UnitOwner)
    requires FirstImportBegins(unit)
    ensures Project(unit).Ok?
  {
    WellFormedWalks(map[], unit, UnitOwner);
  }
}

=== FILE: document.dfy ===
/** The output document as the projector builds it in memory, before it is
    serialised: keyed maps, ordered lists and a few kinds of leaf. The
    document library's three operations ("set key", "append to list",
    "has key") and its two typed getters are the helpers at the end. */
module Document {

  datatype Option<+T> = None | Some(value: T)

  /** A source coordinate as the parser reports it. */
  datatype Pos = Pos(line: int, column: int)

  /** A document value.
      - JStr: a string the projector rendered itself (a `toString()`).
      - JRaw: a parser value the projector does not render itself, kept
        opaque (the first import's name node, a modifier set, a declared
        type), represented by its text.
      - JPos: a position read with `get()` from the node's optional span.
      - JOptPos: the optional span of a name node, stored unread. */
  datatype Json =
    | JObj(fields: map<string, Json>)
    | JArr(items: seq<Json>)
    | JStr(text: string)
    | JRaw(rendering: string)
    | JPos(pos: Pos)
    | JOptPos(span: Option<Pos>)

  /** One scope of the output: the map a handler is given to update. */
  type Doc = map<string, Json>

  /** Why a walk aborts. Every one of them is an exception in the source
      that nothing catches, so no partial document survives it. */
  datatype Error =
    | MissingPosition          // `Optional.get()` on an absent span
    | NotAnObject(key: string) // `getJSONObject` on a key that holds something else
    | NotAnArray(key: string)  // `getJSONArray` on a missing key or one that holds something else
    | InvalidDeclaratorOwner   // a declarator whose parent is not a field declaration

  datatype Result<+T> = Ok(value: T) | Err(error: Error) {

    predicate IsFailure() {
      Err?
    }

    function PropagateFailure<U>(): Result<U>
      requires Err?
    {
      Err(error)
    }

    function Extract(): T
      requires Ok?
    {
      value
    }
  }

  /** The value stored under `k`, if any. Two documents agree on `k` exactly
      when `Member` gives the same answer for both. */
  function Member(d: Doc, k: string): Option<Json> {
    if k in d then Some(d[k]) else None
  }

  /** The value stored under `k2` inside the map stored under `k`, if any. */
  function Inner(d: Doc, k: string, k2: string): Option<Json> {
    if k in d && d[k].JObj? && k2 in d[k].fields then Some(d[k].fields[k2]) else None
  }

  /** `get()` on an optional position. */
  function Required(p: Option<Pos>): Result<Pos> {
    if p.Some? then Ok(p.value) else Err(MissingPosition)
  }

  /** `getJSONObject(k)`: the map under `k`, failing when `k` is missing or
      holds something else. */
  function ObjectAt(d: Doc, k: string): Result<Doc> {
    if k in d && d[k].JObj? then Ok(d[k].fields) else Err(NotAnObject(k))
  }

  /** `getJSONArray(k)`: the list under `k`, failing when `k` is missing or
      holds something else. */
  function ArrayAt(d: Doc, k: string): Result<seq<Json>> {
    if k in d && d[k].JArr? then Ok(d[k].items) else Err(NotAnArray(k))
  }

  /** `has(k) ? getJSONObject(k) : new JSONObject()`. */
  function ObjectOrEmpty(d: Doc, k: string): Result<Doc> {
    if k in d then ObjectAt(d, k) else Ok(map[])
  }

  /** `has(k) ? getJSONArray(k) : new JSONArray()`. */
  function ArrayOrEmpty(d: Doc, k: string): Result<seq<Json>> {
    if k in d then ArrayAt(d, k) else Ok([])
  }
}

=== FILE: last_wins.dfy ===
/** The overwrite policies: a package, a type of a given name, and a
    declarator of a given name each replace whatever an earlier one of the
    same scope wrote, so the last one in source order is all that remains. */
module LastWins {
  import opened Document
  import opened Syntax
  import opened Projector
  import opened Traversal
  import opened Accumulation

  /** The last of `nodes` that satisfies `p`, if any. */
  function LastWhere(nodes: seq<Node>, p: Node -> bool): (r: Option<Node>)
    ensures r.Some? ==> p(r.value)
    ensures r.None? <==> forall i :: 0 <= i < |nodes| ==> !p(nodes[i])
  {
    if nodes == [] then None
    else
      var last, prefix := nodes[|nodes| - 1], nodes[..|nodes| - 1];
      if p(last) then Some(last) else LastWhere(prefix, p)
  }

  /** No node satisfying `p` follows the one LastWhere picks. */
  lemma {:induction false} LastWhereIsLast(nodes: seq<Node>, p: Node -> bool)
    ensures LastWhere(nodes, p).Some? ==>
      exists i :: 0 <= i < |nodes| && nodes[i] == LastWhere(nodes, p).value &&
        forall j :: i < j < |nodes| ==> !p(nodes[j])
    decreases |nodes|
  {
    if nodes != [] {
      var prefix, last := nodes[..|nodes| - 1], nodes[|nodes| - 1];
      if p(last) {
        assert LastWhere(nodes, p) == Some(last);
        assert nodes[|nodes| - 1] == last;
      } else if LastWhere(prefix, p).Some? {
        assert LastWhere(nodes, p) == LastWhere(prefix, p);
        LastWhereIsLast(prefix, p);
        var i :| 0 <= i < |prefix| && prefix[i] == LastWhere(prefix, p).value &&
                 forall j :: i < j < |prefix| ==> !p(prefix[j]);
        assert nodes[i] == prefix[i];
        assert forall j :: i < j < |prefix| ==> nodes[j] == prefix[j];
        assert forall j :: i < j < |nodes| ==> !p(nodes[j]);
      }
    }
  }

  predicate DeclaresClass(n: Node, c: string) {
    n.ClassDecl? && n.name == c
  }

  function ClassNamed(c: string): Node -> bool {
    n => DeclaresClass(n, c)
  }

  /** The last type declaration named `c` among `nodes`, if any. */
  function LastClassNamed(nodes: seq<Node>, c: string): (r: Option<Node>)
    ensures r.Some? ==> DeclaresClass(r.value, c)
    ensures r.None? <==> forall i :: 0 <= i < |nodes| ==> !DeclaresClass(nodes[i], c)
  {
    LastWhere(nodes, ClassNamed(c))
  }

  /** No type named `c` follows the one LastClassNamed picks. */
  lemma LastClassNamedIsLast(nodes: seq<Node>, c: string)
    ensures LastClassNamed(nodes, c).Some? ==>
      exists i :: 0 <= i < |nodes| && nodes[i] == LastClassNamed(nodes, c).value &&
        forall j :: i < j < |nodes| ==> !DeclaresClass(nodes[j], c)
  {
    LastWhereIsLast(nodes, ClassNamed(c));
  }

  /** Type name collisions overwrite: the entry under `c` in `classes` is
      the map of the last type named `c`, which does not depend on any
      earlier one; with no such type the entry is whatever it was. */
  lemma {:induction false} ClassesLastWin(head: Doc, nodes: seq<Node>, owner: Owner, c: string)
    requires NoDeclaratorNamed(nodes, "classes")
    requires ParseCU(head, nodes, owner).Ok?
    ensures var d := ParseCU(head, nodes, owner).value;
      match LastClassNamed(nodes, c)
      case Some(n) => ClassBody(n).Ok? && Inner(d, "classes", c) == Some(JObj(ClassBody(n).value))
      case None => Inner(d, "classes", c) == Inner(head, "classes", c)
    decreases |nodes|
  {
    if nodes != [] {
      var prefix, last := nodes[..|nodes| - 1], nodes[|nodes| - 1];
      WalkLast(head, nodes, owner);
      ClassesLastWin(head, prefix, owner, c);
      var before := ParseCU(head, prefix, owner).value;
      var d := ParseCU(head, nodes, owner).value;
      assert Dispatch(before, last, owner) == Ok(d);
      if DeclaresClass(last, c) {
        assert LastClassNamed(nodes, c) == Some(last);
        assert ProcessClassOrInterface(before, last) == Ok(d);
      } else {
        assert LastClassNamed(nodes, c) == LastClassNamed(prefix, c);
        if last.ClassDecl? {
          assert ProcessClassOrInterface(before, last) == Ok(d);
        } else {
          assert KeyOf(last) != Some("classes");
          assert Member(d, "classes") == Member(before, "classes");
        }
        assert Inner(d, "classes", c) == Inner(before, "classes", c);
      }
    }
  }

  /** Two sibling types sharing a name: only the second one's map remains. */
  lemma SameNamedClasses(head: Doc, first: Node, second: Node, owner: Owner)
    requires second.ClassDecl? && DeclaresClass(first, second.name)
    requires ParseCU(head, [first, second], owner).Ok?
    ensures ClassBody(second).Ok?
    ensures Inner(ParseCU(head, [first, second], owner).value, "classes", second.name)
            == Some(JObj(ClassBody(second).value))
  {
    ClassesLastWin(head, [first, second], owner, second.name);
  }

  function IsPackage(n: Node): bool {
    n.PackageDecl?
  }

  /** The last package declaration among `nodes`, if any. */
  function LastPackage(nodes: seq<Node>): (r: Option<Node>)
    ensures r.Some? ==> r.value.PackageDecl?
    ensures r.None? <==> forall i :: 0 <= i < |nodes| ==> !nodes[i].PackageDecl?
  {
    LastWhere(nodes, IsPackage)
  }

  /** `package` holds the last package declaration's name, with the name's
      own span, and its begin and end; with none it is what it was. */
  lemma {:induction false} PackageLastWins(head: Doc, nodes: seq<Node>, owner: Owner)
    requires NoDeclaratorNamed(nodes, "package")
    requires ParseCU(head, nodes, owner).Ok?
    ensures var d := ParseCU(head, nodes, owner).value;
      match LastPackage(nodes)
      case Some(p) =>
        && p.begin.Some? && p.end.Some?
        && Member(d, "package") == Some(PackageRecord(p))
      case None => Member(d, "package") == Member(head, "package")
    decreases |nodes|
  {
    if nodes != [] {
      var prefix, last := nodes[..|nodes| - 1], nodes[|nodes| - 1];
      WalkLast(head, nodes, owner);
      PackageLastWins(head, prefix, owner);
      if !last.PackageDecl? {
        assert KeyOf(last) != Some("package");
      }
    }
  }

  predicate DeclaresVariable(n: Node, v: string) {
    n.VariableDecl? && n.name == v
  }

  function VariableNamed(v: string): Node -> bool {
    n => DeclaresVariable(n, v)
  }

  /** The last declarator named `v` among `nodes`, if any. */
  function LastDeclaratorNamed(nodes: seq<Node>, v: string): (r: Option<Node>)
    ensures r.Some? ==> DeclaresVariable(r.value, v)
    ensures r.None? <==> forall i :: 0 <= i < |nodes| ==> !DeclaresVariable(nodes[i], v)
  {
    LastWhere(nodes, VariableNamed(v))
  }

  /** Only a declarator may write key `v` among `nodes`. */
  predicate OnlyDeclaratorsWrite(nodes: seq<Node>, v: string) {
    forall i :: 0 <= i < |nodes| && KeyOf(nodes[i]) == Some(v) ==> nodes[i].VariableDecl?
  }

  /** Under a field declaration with modifiers `modifiers`, the entry under
      `v` is the record of the last declarator named `v`, carrying those
      modifiers; with no such declarator it is what it was. */
  lemma {:induction false} DeclaratorsLastWin(head: Doc, nodes: seq<Node>, modifiers: string, v: string)
    requires OnlyDeclaratorsWrite(nodes, v)
    requires ParseCU(head, nodes, FieldOwner(modifiers)).Ok?
    ensures var d := ParseCU(head, nodes, FieldOwner(modifiers)).value;
      match LastDeclaratorNamed(nodes, v)
      case Some(x) => Member(d, v) == Some(DeclaratorRecord(modifiers, x))
      case None => Member(d, v) == Member(head, v)
    decreases |nodes|
  {
    if nodes != [] {
      var prefix, last := nodes[..|nodes| - 1], nodes[|nodes| - 1];
      WalkLast(head, nodes, FieldOwner(modifiers));
      DeclaratorsLastWin(head, prefix, modifiers, v);
      if !DeclaresVariable(last, v) {
        assert KeyOf(last) != Some(v);
      }
    }
  }

  /** A field declaration writes each of its declarators into the scope's
      shared `fields` map, last one of a name winning, with the field's own
      modifiers; every other entry of `fields` stays as it was. */
  lemma FieldDeclaratorsLastWin(head: Doc, f: Node, owner: Owner, v: string)
    requires f.FieldDecl?
    requires OnlyDeclaratorsWrite(f.children, v)
    requires Dispatch(head, f, owner).Ok?
    ensures var d := Dispatch(head, f, owner).value;
      match LastDeclaratorNamed(f.children, v)
      case Some(x) => Inner(d, "fields", v) == Some(DeclaratorRecord(f.modifiers, x))
      case None => Inner(d, "fields", v) == Inner(head, "fields", v)
  {
    var fields := ObjectOrEmpty(head, "fields").value;
    DeclaratorsLastWin(fields, f.children, f.modifiers, v);
  }

  /** Every field declaration among `nodes` writes key `v` of the shared
      `fields` map only through a declarator. */
  predicate FieldsWriteOnlyDeclarators(nodes: seq<Node>, v: string) {
    forall i :: 0 <= i < |nodes| && nodes[i].FieldDecl? ==> OnlyDeclaratorsWrite(nodes[i].children, v)
  }

  /** The entry under `v` that the field declarations among `nodes` leave in
      the shared `fields` map: the record of the last declarator named `v`,
      with the modifiers of the field declaring it; none when no field
      declares `v`. */
  function FieldEntry(nodes: seq<Node>, v: string): Option<Json> {
    if nodes == [] then None
    else
      var last := nodes[|nodes| - 1];
      if last.FieldDecl? && LastDeclaratorNamed(last.children, v).Some? then
        Some(DeclaratorRecord(last.modifiers, LastDeclaratorNamed(last.children, v).value))
      else FieldEntry(nodes[..|nodes| - 1], v)
  }

  /** All field declarations of a scope share one `fields` map: the entry
      under `v` is the record of the last declarator named `v` across all of
      them, with its own field's modifiers; with none it is what it was. */
  lemma {:induction false} FieldsLastWin(head: Doc, nodes: seq<Node>, owner: Owner, v: string)
    requires NoDeclaratorNamed(nodes, "fields")
    requires FieldsWriteOnlyDeclarators(nodes, v)
    requires ParseCU(head, nodes, owner).Ok?
    ensures var d := ParseCU(head, nodes, owner).value;
      Inner(d, "fields", v) == if FieldEntry(nodes, v).Some? then FieldEntry(nodes, v) else Inner(head, "fields", v)
    decreases |nodes|
  {
    if nodes != [] {
      var prefix, last := nodes[..|nodes| - 1], nodes[|nodes| - 1];
      WalkLast(head, nodes, owner);
      FieldsLastWin(head, prefix, owner, v);
      var before := ParseCU(head, prefix, owner).value;
      if last.FieldDecl? {
        FieldDeclaratorsLastWin(before, last, owner, v);
      } else {
        assert KeyOf(last) != Some("fields");
        assert Member(ParseCU(head, nodes, owner).value, "fields") == Member(before, "fields");
      }
    }
  }
}

=== FILE: nesting.dfy ===
/** Recursion into a type's own map: a type's members are projected inside
    that type's map, exactly as its own child list describes them, and the
    enclosing scope sees only the type's finished map under `classes`. */
module Nesting {
  import opened Document
  import opened Syntax
  import opened Projector
  import opened Accumulation
  import opened LastWins

  /** The scope a type's children are walked in, and what that walk gives. */
  lemma BodyIsChildWalk(c: Node)
    requires c.ClassDecl? && ClassBody(c).Ok?
    ensures c.begin.Some? && c.end.Some?
    ensures ParseCU(ClassHeader(c, c.begin.value, c.end.value), c.children, ClassOwner) == ClassBody(c)
    ensures forall i :: 0 <= i < |c.children| ==> !c.children[i].VariableDecl?
  {
    var header := ClassHeader(c, c.begin.value, c.end.value);
    assert ParseCU(header, c.children, ClassOwner).Ok?;
  }

  /** A type's map lists exactly the type's own constructors, one record
      each in source order; it has `constructors` exactly when the type
      declares one. */
  lemma NestedConstructors(c: Node)
    requires c.ClassDecl? && ClassBody(c).Ok?
    ensures var body := ClassBody(c).value;
      && Constructors(body) == ConstructorsIn(c.children)
      && ("constructors" in body <==> ConstructorCount(c.children) > 0)
  {
    BodyIsChildWalk(c);
    ConstructorsAccumulate(ClassHeader(c, c.begin.value, c.end.value), c.children, ClassOwner);
  }

  /** A nested type lands in its enclosing type's own `classes` map: the
      entry under `k` is the map of the last direct child type named `k`,
      and there is none when no direct child type has that name. */
  lemma NestedClasses(c: Node, k: string)
    requires c.ClassDecl? && ClassBody(c).Ok?
    ensures var body := ClassBody(c).value;
      match LastClassNamed(c.children, k)
      case Some(n) => ClassBody(n).Ok? && Inner(body, "classes", k) == Some(JObj(ClassBody(n).value))
      case None => Inner(body, "classes", k) == None
  {
    BodyIsChildWalk(c);
    ClassesLastWin(ClassHeader(c, c.begin.value, c.end.value), c.children, ClassOwner, k);
  }

  /** A type's own `fields` map holds, under `v`, the record of the last
      declarator named `v` among the type's field declarations, with that
      field's modifiers; there is none when no field of the type declares
      `v`. */
  lemma NestedFields(c: Node, v: string)
    requires c.ClassDecl? && ClassBody(c).Ok?
    requires FieldsWriteOnlyDeclarators(c.children, v)
    ensures Inner(ClassBody(c).value, "fields", v) == FieldEntry(c.children, v)
  {
    BodyIsChildWalk(c);
    FieldsLastWin(ClassHeader(c, c.begin.value, c.end.value), c.children, ClassOwner, v);
  }

  /** Imports among a type's children build the type's own import block,
      just as at the compilation unit. */
  lemma NestedImports(c: Node)
    requires c.ClassDecl? && ClassBody(c).Ok?
    ensures ImportsDescribed(ClassBody(c).value, ImportNodes(c.children))
  {
    BodyIsChildWalk(c);
    ImportsAccumulate(ClassHeader(c, c.begin.value, c.end.value), c.children, ClassOwner);
  }

  /** A package declaration among a type's children writes the type's own
      `package` key, never the enclosing scope's. */
  lemma NestedPackage(c: Node)
    requires c.ClassDecl? && ClassBody(c).Ok?
    ensures var body := ClassBody(c).value;
      match LastPackage(c.children)
      case Some(p) => p.begin.Some? && p.end.Some? && Member(body, "package") == Some(PackageRecord(p))
      case None => "package" !in body
  {
    BodyIsChildWalk(c);
    PackageLastWins(ClassHeader(c, c.begin.value, c.end.value), c.children, ClassOwner);
  }
}

=== FILE: projector.dfy ===
/** The tree projector: `parseCU` and its seven handlers. Each handler takes
    the scope it is given and returns the updated scope, or the error that
    aborts the walk. In the source the scope is a mutable object updated in
    place; no scope is ever stored in two places, and an error aborts the
    whole walk, so returning the updated value computes the same document. */
module Projector {
  import opened Document
  import opened Syntax

  /** The one key of the current scope that dispatching `n` may change:
      every node fires at most one handler, and that handler writes at most
      one key of the scope it is given. */
  function KeyOf(n: Node): Option<string> {
    match n
    case PackageDecl(_, _, _, _, _) => Some("package")
    case ImportDecl(_, _, _, _, _) => Some("imports")
    case ClassDecl(_, _, _, _, _, _, _, _) => Some("classes")
    case FieldDecl(_, _) => Some("fields")
    case VariableDecl(name, _) => Some(name)
    case ConstructorDecl(_, _, _, _) => Some("constructors")
    case MethodDecl(_, _, _, _, _, _) => Some("methods")
    case SimpleName => None
    case Unhandled(_) => None
  }

  /** No node of `nodes` may change key `k`. */
  predicate Untouched(nodes: seq<Node>, k: string) {
    forall i :: 0 <= i < |nodes| ==> KeyOf(nodes[i]) != Some(k)
  }

  /** What a node must carry for its own handler to get past its `get()`
      calls and its declarator cast. A later import reads only its end. */
  predicate Accepted(n: Node, owner: Owner) {
    if n.PackageDecl? || n.ClassDecl? || n.ConstructorDecl? || n.MethodDecl? then
      n.begin.Some? && n.end.Some?
    else if n.ImportDecl? then
      n.end.Some?
    else if n.VariableDecl? then
      owner.FieldOwner?
    else
      true
  }

  /** In a scope without an `imports` block, the first node that may write
      `imports`, when it is an import declaration, creates the block and so
      also reads its begin. */
  predicate FirstImportBegins(nodes: seq<Node>) {
    forall i :: 0 <= i < |nodes| && nodes[i].ImportDecl? && Untouched(nodes[..i], "imports") ==>
      nodes[i].begin.Some?
  }

  /** The first-import rule for a list follows from its head and its tail. */
  lemma FirstImportStep(nodes: seq<Node>)
    requires nodes != []
    requires nodes[0].ImportDecl? ==> nodes[0].begin.Some?
    requires KeyOf(nodes[0]) != Some("imports") ==> FirstImportBegins(nodes[1..])
    ensures FirstImportBegins(nodes)
  {
    forall i | 0 < i < |nodes| && nodes[i].ImportDecl? && Untouched(nodes[..i], "imports")
      ensures nodes[i].begin.Some?
    {
      assert nodes[..i][0] == nodes[0];
      assert nodes[1..][..i - 1] == nodes[1..i];
      assert nodes[1..][i - 1] == nodes[i];
    }
  }

  /** The first import's list entry: the name node itself, with its span. */
  function FirstImportEntry(n: Node): Json
    requires n.ImportDecl?
  {
    JArr([JRaw(n.name), JOptPos(n.nameBegin), JOptPos(n.nameEnd)])
  }

  /** Shape an existing `imports` entry must have for a later import. */
  predicate ImportBlock(j: Json) {
    j.JObj? && "list" in j.fields && j.fields["list"].JArr?
  }

  /** The record a type declaration starts from, before its members are added. */
  function ClassHeader(n: Node, b: Pos, e: Pos): Doc
    requires n.ClassDecl?
  {
    map["begin" := JPos(b), "end" := JPos(e),
        "isInterface" := JStr(if n.isInterface then "true" else "false"),
        "modifiers" := JRaw(n.modifiers),
        "extendedType" := JStr(n.extendedTypes),
        "implementedTypes" := JStr(n.implementedTypes)]
  }

  /** The `package` record: the name text with the name's own span, and the
      declaration's begin and end. */
  function PackageRecord(n: Node): Json
    requires n.PackageDecl? && n.begin.Some? && n.end.Some?
  {
    JObj(map["name" := JArr([JStr(n.name), JOptPos(n.nameBegin), JOptPos(n.nameEnd)]),
             "begin" := JPos(n.begin.value), "end" := JPos(n.end.value)])
  }

  /** A declarator's record: the owning field's modifiers and its own type. */
  function DeclaratorRecord(modifiers: string, n: Node): Json
    requires n.VariableDecl?
  {
    JObj(map["modifiers" := JRaw(modifiers), "type" := JRaw(n.declaredType)])
  }

  function ConstructorDetail(n: Node): Json
    requires n.ConstructorDecl? && n.begin.Some? && n.end.Some?
  {
    JObj(map["modifiers" := JRaw(n.modifiers), "parameters" := JStr(n.parameters),
             "begin" := JPos(n.begin.value), "end" := JPos(n.end.value)])
  }

  function MethodDetail(n: Node): Json
    requires n.MethodDecl? && n.begin.Some? && n.end.Some?
  {
    JObj(map["begin" := JPos(n.begin.value), "end" := JPos(n.end.value),
             "typeParameter" := JStr(n.typeParameters),
             "modifiers" := JRaw(n.modifiers), "parameters" := JStr(n.parameters)])
  }

  /** The overloads already recorded under method name `m`. */
  function Overloads(d: Doc, m: string): seq<Json> {
    match Inner(d, "methods", m)
    case Some(JArr(items)) => items
    case _ => []
  }

  /** The constructors already recorded in scope `d`. */
  function Constructors(d: Doc): seq<Json> {
    match Member(d, "constructors")
    case Some(JArr(items)) => items
    case _ => []
  }

  /** `parseCU`: dispatch the siblings in list order, threading the scope. */
  function ParseCU(head: Doc, nodes: seq<Node>, owner: Owner): (r: Result<Doc>)
    decreases SizeOf(nodes), 3
    ensures r.Ok? ==> forall k :: Untouched(nodes, k) ==> Member(r.value, k) == Member(head, k)
    ensures r.Ok? ==> forall i :: 0 <= i < |nodes| ==> Accepted(nodes[i], owner)
    ensures r.Ok? && "imports" !in head ==> FirstImportBegins(nodes)
  {
    if nodes == [] then Ok(head)
    else
      var next :- Dispatch(head, nodes[0], owner);
      var r := ParseCU(next, nodes[1..], owner);
      if r.Ok? && "imports" !in head then FirstImportStep(nodes); r else r
  }

  /** One step of `parseCU`: exactly one handler per recognised kind; a
      simple-name leaf is skipped silently and any other kind is skipped
      after a printed warning. */
  function Dispatch(head: Doc, n: Node, owner: Owner): (r: Result<Doc>)
    decreases Size(n), 2
    ensures n.SimpleName? || n.Unhandled? ==> r == Ok(head)
    ensures r.Ok? ==> forall k :: KeyOf(n) != Some(k) ==> Member(r.value, k) == Member(head, k)
    ensures r.Ok? ==> Accepted(n, owner)
    ensures r.Ok? && n.ImportDecl? && "imports" !in head ==> n.begin.Some?
  {
    match n
    case PackageDecl(_, _, _, _, _) => ProcessPackage(head, n)
    case ImportDecl(_, _, _, _, _) => ProcessImport(head, n)
    case ClassDecl(_, _, _, _, _, _, _, _) => ProcessClassOrInterface(head, n)
    case FieldDecl(_, _) => ProcessField(head, n)
    case VariableDecl(_, _) => ProcessVariable(head, n, owner)
    case ConstructorDecl(_, _, _, _) => ProcessConstructor(head, n)
    case MethodDecl(_, _, _, _, _, _) => ProcessMethod(head, n)
    case SimpleName => Ok(head)
    case Unhandled(_) => Ok(head)
  }

  /** `processPackage`: overwrite `package`, whatever was there. */
  function ProcessPackage(head: Doc, n: Node): (r: Result<Doc>)
    requires n.PackageDecl?
    ensures r.Ok? <==> n.begin.Some? && n.end.Some?
    ensures r.Err? ==> r.error == MissingPosition
    ensures r.Ok? ==> forall k :: k != "package" ==> Member(r.value, k) == Member(head, k)
    ensures r.Ok? ==> Member(r.value, "package") == Some(PackageRecord(n))
  {
    var _ :- Required(n.begin);
    var _ :- Required(n.end);
    Ok(head["package" := PackageRecord(n)])
  }

  /** `processImport`: the first import creates the block, a later one
      appends its name text and moves the block's end. */
  function ProcessImport(head: Doc, n: Node): (r: Result<Doc>)
    requires n.ImportDecl?
    ensures r.Ok? ==> forall k :: k != "imports" ==> Member(r.value, k) == Member(head, k)
    ensures "imports" !in head ==> (r.Ok? <==> n.begin.Some? && n.end.Some?)
    ensures "imports" !in head && r.Err? ==> r.error == MissingPosition
    ensures "imports" !in head && r.Ok? ==>
      Member(r.value, "imports") ==
      Some(JObj(map["list" := JArr([FirstImportEntry(n)]),
                    "begin" := JPos(n.begin.value), "end" := JPos(n.end.value)]))
    ensures "imports" in head ==> (r.Ok? <==> ImportBlock(head["imports"]) && n.end.Some?)
    ensures "imports" in head && !head["imports"].JObj? ==> r == Err(NotAnObject("imports"))
    ensures "imports" in head && head["imports"].JObj? && !ImportBlock(head["imports"]) ==>
      r == Err(NotAnArray("list"))
    ensures "imports" in head && ImportBlock(head["imports"]) && n.end.None? ==> r == Err(MissingPosition)
    ensures "imports" in head && r.Ok? ==>
      && "imports" in r.value && ImportBlock(r.value["imports"])
      && r.value["imports"].fields["list"].items
         == head["imports"].fields["list"].items + [JStr(n.name)]
      && Member(r.value["imports"].fields, "end") == Some(JPos(n.end.value))
      && forall k :: k != "list" && k != "end" ==>
           Member(r.value["imports"].fields, k) == Member(head["imports"].fields, k)
  {
    if "imports" in head then
      var imports :- ObjectAt(head, "imports");
      var list :- ArrayAt(imports, "list");
      var e :- Required(n.end);
      Ok(head["imports" := JObj(imports["list" := JArr(list + [JStr(n.name)])]["end" := JPos(e)])])
    else
      var entry := FirstImportEntry(n);
      var b :- Required(n.begin);
      var e :- Required(n.end);
      Ok(head["imports" := JObj(map["list" := JArr([entry]), "begin" := JPos(b), "end" := JPos(e)])])
  }

  /** The map a type declaration projects to: its header, then its own
      children dispatched into it. It does not depend on the enclosing scope. */
  function ClassBody(n: Node): (r: Result<Doc>)
    requires n.ClassDecl?
    decreases Size(n), 0
    ensures r.Ok? ==> n.begin.Some? && n.end.Some?
    ensures n.begin.None? || n.end.None? ==> r == Err(MissingPosition)
    ensures n.begin.Some? && n.end.Some? && ParseCU(ClassHeader(n, n.begin.value, n.end.value), n.children, ClassOwner).Ok?
      ==> r.Ok?
    ensures r.Ok? ==> forall k :: k !in ClassHeader(n, n.begin.value, n.end.value) && Untouched(n.children, k) ==>
      k !in r.value
    ensures r.Ok? ==> forall k :: k in ClassHeader(n, n.begin.value, n.end.value) ==>
      Member(r.value, k) == Some(ClassHeader(n, n.begin.value, n.end.value)[k])
  {
    var b :- Required(n.begin);
    var e :- Required(n.end);
    var r := ParseCU(ClassHeader(n, b, e), n.children, ClassOwner);
    if r.Ok? then HeaderKeysUntouched(n, b, e); r else r
  }

  /** A type's children cannot write its header keys: in a type's scope a
      declarator is rejected, and no other kind writes those keys. */
  lemma HeaderKeysUntouched(n: Node, b: Pos, e: Pos)
    requires n.ClassDecl?
    requires forall i :: 0 <= i < |n.children| ==> Accepted(n.children[i], ClassOwner)
    ensures forall k :: k in ClassHeader(n, b, e) ==> Untouched(n.children, k)
  {
    forall k, i | k in ClassHeader(n, b, e) && 0 <= i < |n.children|
      ensures KeyOf(n.children[i]) != Some(k)
    {
      assert !n.children[i].VariableDecl?;
    }
  }

  /** `processClassOrInterface`: make sure `classes` exists and overwrite the
      entry under the type's name with the type's own map. */
  function ProcessClassOrInterface(head: Doc, n: Node): (r: Result<Doc>)
    requires n.ClassDecl?
    decreases Size(n), 1
    ensures r.Ok? <==> ObjectOrEmpty(head, "classes").Ok? && ClassBody(n).Ok?
    ensures ObjectOrEmpty(head, "classes").Err? ==> r == Err(NotAnObject("classes"))
    ensures ObjectOrEmpty(head, "classes").Ok? && ClassBody(n).Err? ==> r == Err(ClassBody(n).error)
    ensures r.Ok? ==> forall k :: k != "classes" ==> Member(r.value, k) == Member(head, k)
    ensures r.Ok? ==> "classes" in r.value && r.value["classes"].JObj?
    ensures r.Ok? ==> Inner(r.value, "classes", n.name) == Some(JObj(ClassBody(n).value))
    ensures r.Ok? ==> forall c :: c != n.name ==>
      Inner(r.value, "classes", c) == Inner(head, "classes", c)
  {
    var classes :- ObjectOrEmpty(head, "classes");
    var body :- ClassBody(n);
    Ok(head["classes" := JObj(classes[n.name := JObj(body)])])
  }

  /** `processField`: make sure `fields` exists and dispatch the field's
      declarators into it, with the field as their owner. */
  function ProcessField(head: Doc, n: Node): (r: Result<Doc>)
    requires n.FieldDecl?
    decreases Size(n), 1
    ensures r.Ok? ==> ObjectOrEmpty(head, "fields").Ok?
    ensures ObjectOrEmpty(head, "fields").Err? ==> r == Err(NotAnObject("fields"))
    ensures ObjectOrEmpty(head, "fields").Ok? ==>
      (r.Ok? <==> ParseCU(ObjectOrEmpty(head, "fields").value, n.children, FieldOwner(n.modifiers)).Ok?)
    ensures r.Ok? ==> forall k :: k != "fields" ==> Member(r.value, k) == Member(head, k)
    ensures r.Ok? ==> "fields" in r.value && r.value["fields"].JObj?
    ensures r.Ok? ==> forall v :: Untouched(n.children, v) ==>
      Inner(r.value, "fields", v) == Inner(head, "fields", v)
    ensures r.Ok? ==> forall i :: 0 <= i < |n.children| ==> Accepted(n.children[i], FieldOwner(n.modifiers))
  {
    var fields :- ObjectOrEmpty(head, "fields");
    var filled :- ParseCU(fields, n.children, FieldOwner(n.modifiers));
    Ok(head["fields" := JObj(filled)])
  }

  /** `processVariable`: overwrite the entry under the declarator's name with
      the owning field's modifiers and the declared type. */
  function ProcessVariable(head: Doc, n: Node, owner: Owner): (r: Result<Doc>)
    requires n.VariableDecl?
    ensures r.Ok? <==> owner.FieldOwner?
    ensures r.Err? ==> r.error == InvalidDeclaratorOwner
    ensures r.Ok? ==> forall k :: k != n.name ==> Member(r.value, k) == Member(head, k)
    ensures r.Ok? ==> Member(r.value, n.name) == Some(DeclaratorRecord(owner.modifiers, n))
  {
    match owner
    case FieldOwner(modifiers) => Ok(head[n.name := DeclaratorRecord(modifiers, n)])
    case _ => Err(InvalidDeclaratorOwner)
  }

  /** `processConstructor`: make sure `constructors` exists and append one
      detail record. */
  function ProcessConstructor(head: Doc, n: Node): (r: Result<Doc>)
    requires n.ConstructorDecl?
    ensures r.Ok? <==> ArrayOrEmpty(head, "constructors").Ok? && n.begin.Some? && n.end.Some?
    ensures ArrayOrEmpty(head, "constructors").Err? ==> r == Err(NotAnArray("constructors"))
    ensures ArrayOrEmpty(head, "constructors").Ok? && (n.begin.None? || n.end.None?) ==>
      r == Err(MissingPosition)
    ensures r.Ok? ==> forall k :: k != "constructors" ==> Member(r.value, k) == Member(head, k)
    ensures r.Ok? ==> Member(r.value, "constructors") == Some(JArr(Constructors(head) + [ConstructorDetail(n)]))
  {
    var list :- ArrayOrEmpty(head, "constructors");
    var b :- Required(n.begin);
    var e :- Required(n.end);
    Ok(head["constructors" := JArr(list + [ConstructorDetail(n)])])
  }

  /** `processMethod`: make sure `methods` and the list under the method's
      name exist, and append one detail record to that list. */
  function ProcessMethod(head: Doc, n: Node): (r: Result<Doc>)
    requires n.MethodDecl?
    ensures r.Ok? <==>
      && ObjectOrEmpty(head, "methods").Ok?
      && ArrayOrEmpty(ObjectOrEmpty(head, "methods").value, n.name).Ok?
      && n.begin.Some? && n.end.Some?
    ensures ObjectOrEmpty(head, "methods").Err? ==> r == Err(NotAnObject("methods"))
    ensures ObjectOrEmpty(head, "methods").Ok? && ArrayOrEmpty(ObjectOrEmpty(head, "methods").value, n.name).Err? ==>
      r == Err(NotAnArray(n.name))
    ensures
      && ObjectOrEmpty(head, "methods").Ok?
      && ArrayOrEmpty(ObjectOrEmpty(head, "methods").value, n.name).Ok?
      && (n.begin.None? || n.end.None?)
      ==> r == Err(MissingPosition)
    ensures r.Ok? ==> forall k :: k != "methods" ==> Member(r.value, k) == Member(head, k)
    ensures r.Ok? ==> "methods" in r.value && r.value["methods"].JObj?
    ensures r.Ok? ==> Inner(r.value, "methods", n.name) == Some(JArr(Overloads(head, n.name) + [MethodDetail(n)]))
    ensures r.Ok? ==> forall m :: m != n.name ==> Inner(r.value, "methods", m) == Inner(head, "methods", m)
  {
    var methods :- ObjectOrEmpty(head, "methods");
    var overloads :- ArrayOrEmpty(methods, n.name);
    var b :- Required(n.begin);
    var e :- Required(n.end);
    Ok(head["methods" := JObj(methods[n.name := JArr(overloads + [MethodDetail(n)])])])
  }

  /** The whole projection: a fresh root scope and one walk over the
      compilation unit's children. */
  function Project(unit: seq<Node>): (r: Result<Doc>)
    ensures r.Ok? ==> forall i :: 0 <= i < |unit| ==> !unit[i].VariableDecl? && Accepted(unit[i], UnitOwner)
    ensures r.Ok? ==> forall k :: Untouched(unit, k) ==> k !in r.value
    ensures r.Ok? ==> FirstImportBegins(unit)
  {
    ParseCU(map[], unit, UnitOwner)
  }
}

=== FILE: scenarios.dfy ===
/** Whole projections of small compilation units, stated as exact
    documents. */
module Scenarios {
  import opened Document
  import opened Syntax
  import opened Projector

  function At(line: int, column: int): Option<Pos> {
    Some(Pos(line, column))
  }

  /** Three imports `a.b.C`, `d.e.F`, `g.H`: the first import's entry is its
      name node with the name's span, the later ones are plain text, and the
      block spans from the first import's begin to the last one's end. */
  lemma ThreeImports()
    ensures
      var first := ImportDecl("a.b.C", At(1, 8), At(1, 12), At(1, 1), At(1, 20));
      var second := ImportDecl("d.e.F", At(2, 8), At(2, 12), At(2, 1), At(2, 20));
      var third := ImportDecl("g.H", At(3, 8), At(3, 10), At(3, 1), At(3, 10));
      Project([first, second, third]) ==
      Ok(map["imports" := JObj(map[
        "list" := JArr([JArr([JRaw("a.b.C"), JOptPos(At(1, 8)), JOptPos(At(1, 12))]),
                        JStr("d.e.F"), JStr("g.H")]),
        "begin" := JPos(Pos(1, 1)),
        "end" := JPos(Pos(3, 10))])])
  {
    var first := ImportDecl("a.b.C", At(1, 8), At(1, 12), At(1, 1), At(1, 20));
    var second := ImportDecl("d.e.F", At(2, 8), At(2, 12), At(2, 1), At(2, 20));
    var third := ImportDecl("g.H", At(3, 8), At(3, 10), At(3, 1), At(3, 10));
    var d1 := ProcessImport(map[], first).value;
    var d2 := ProcessImport(d1, second).value;
    var d3 := ProcessImport(d2, third).value;
    var entry := JArr([JRaw("a.b.C"), JOptPos(At(1, 8)), JOptPos(At(1, 12))]);
    var block1 := map["list" := JArr([entry]), "begin" := JPos(Pos(1, 1)), "end" := JPos(Pos(1, 20))];
    var block2 := map["list" := JArr([entry, JStr("d.e.F")]), "begin" := JPos(Pos(1, 1)), "end" := JPos(Pos(2, 20))];
    var block3 := map["list" := JArr([entry, JStr("d.e.F"), JStr("g.H")]),
                      "begin" := JPos(Pos(1, 1)), "end" := JPos(Pos(3, 10))];
    assert d1 == map["imports" := JObj(block1)];
    assert [entry] + [JStr("d.e.F")] == [entry, JStr("d.e.F")];
    assert block1["list" := JArr([entry, JStr("d.e.F")])]["end" := JPos(Pos(2, 20))] == block2;
    assert d2 == map["imports" := JObj(block2)];
    assert [entry, JStr("d.e.F")] + [JStr("g.H")] == [entry, JStr("d.e.F"), JStr("g.H")];
    assert block2["list" := JArr([entry, JStr("d.e.F"), JStr("g.H")])]["end" := JPos(Pos(3, 10))] == block3;
    assert d3 == map["imports" := JObj(block3)];
    assert ParseCU(d3, [], UnitOwner) == Ok(d3);
    assert ParseCU(d2, [third], UnitOwner) == Ok(d3);
    assert ParseCU(d1, [second, third], UnitOwner) == Ok(d3) by {
      assert [second, third][1..] == [third];
    }
    assert [first, second, third][1..] == [second, third];
  }

  /** A later import without a begin is accepted (only its end is read); a
      first import without one aborts the projection. */
  lemma LaterImportNeedsOnlyItsEnd()
    ensures
      var first := ImportDecl("a.b.C", None, None, At(1, 1), At(1, 20));
      var second := ImportDecl("d.e.F", None, None, None, At(2, 20));
      && Project([first, second]).Ok?
      && Project([second, first]) == Err(MissingPosition)
  {
    var first := ImportDecl("a.b.C", None, None, At(1, 1), At(1, 20));
    var second := ImportDecl("d.e.F", None, None, None, At(2, 20));
    var d1 := ProcessImport(map[], first).value;
    var d2 := ProcessImport(d1, second).value;
    assert ParseCU(d2, [], UnitOwner) == Ok(d2);
    assert ParseCU(d1, [second], UnitOwner) == Ok(d2);
    assert [first, second][1..] == [second];
  }

  /** A declarator directly inside a type, not inside a field declaration,
      aborts the projection: its parent cannot be read as a field. */
  lemma DeclaratorInsideTypeFails()
    ensures
      var c := ClassDecl("X", false, "[]", "[]", "[]", At(1, 1), At(3, 1), [VariableDecl("x", "int")]);
      Project([c]) == Err(InvalidDeclaratorOwner)
  {
    var c := ClassDecl("X", false, "[]", "[]", "[]", At(1, 1), At(3, 1), [VariableDecl("x", "int")]);
    var header := ClassHeader(c, Pos(1, 1), Pos(3, 1));
    assert ParseCU(header, c.children, ClassOwner) == Err(InvalidDeclaratorOwner);
  }
}

=== FILE: syntax.dfy ===
/** The parsed syntax tree the projector reads. Only the node kinds the
    dispatcher tells apart are distinguished; names, modifier sets and the
    renderings of types, parameters and type parameters are opaque text. */
module Syntax {
  import opened Document

  /** A syntax node. Spans are optional because the parser may leave them
      out; a name node's own span is kept apart from its declaration's. */
  datatype Node =
    | PackageDecl(name: string, nameBegin: Option<Pos>, nameEnd: Option<Pos>,
                  begin: Option<Pos>, end: Option<Pos>)
    | ImportDecl(name: string, nameBegin: Option<Pos>, nameEnd: Option<Pos>,
                 begin: Option<Pos>, end: Option<Pos>)
    | ClassDecl(name: string, isInterface: bool, modifiers: string,
                extendedTypes: string, implementedTypes: string,
                begin: Option<Pos>, end: Option<Pos>, children: seq<Node>)
    | FieldDecl(modifiers: string, children: seq<Node>)
    | VariableDecl(name: string, declaredType: string)
    | ConstructorDecl(modifiers: string, parameters: string,
                      begin: Option<Pos>, end: Option<Pos>)
    | MethodDecl(name: string, typeParameters: string, modifiers: string,
                 parameters: string, begin: Option<Pos>, end: Option<Pos>)
    | SimpleName
    | Unhandled(kind: string)

  /** The node whose child list is being dispatched. A declarator reads its
      modifiers from this parent, which must be a field declaration. */
  datatype Owner = UnitOwner | ClassOwner | FieldOwner(modifiers: string)

  /** Number of nodes in a subtree; the walk's termination measure. */
  function Size(n: Node): nat {
    match n
    case ClassDecl(_, _, _, _, _, _, _, children) => 1 + SizeOf(children)
    case FieldDecl(_, children) => 1 + SizeOf(children)
    case _ => 1
  }

  function SizeOf(ns: seq<Node>): nat {
    if ns == [] then 0 else Size(ns[0]) + SizeOf(ns[1..])
  }
}

=== FILE: traversal.dfy ===
/** Facts about the walk as a whole: it visits siblings in list order,
    skipped kinds are inert, and a missing span or a misplaced declarator
    anywhere in the walked tree aborts the entire walk. */
module Traversal {
  import opened Document
  import opened Syntax
  import opened Projector

  /** Continue a walk that may already have failed. */
  function Continue(r: Result<Doc>, rest: seq<Node>, owner: Owner): Result<Doc> {
    match r
    case Ok(d) => ParseCU(d, rest, owner)
    case Err(e) => Err(e)
  }

  /** Walking `a + b` is walking `a`, then walking `b` from where `a` left
      the scope; a failure in `a` is the failure of the whole. */
  lemma {:induction false} WalkInOrder(head: Doc, a: seq<Node>, b: seq<Node>, owner: Owner)
    ensures ParseCU(head, a + b, owner) == Continue(ParseCU(head, a, owner), b, owner)
    decreases |a|
  {
    if a != [] {
      assert (a + b)[0] == a[0];
      assert (a + b)[1..] == a[1..] + b;
      match Dispatch(head, a[0], owner)
      case Ok(next) => WalkInOrder(next, a[1..], b, owner);
      case Err(_) =>
    } else {
      assert a + b == b;
    }
  }

  /** The last step of a walk: walk the prefix, then dispatch the last node. */
  lemma WalkLast(head: Doc, nodes: seq<Node>, owner: Owner)
    requires nodes != []
    ensures var prefix := nodes[..|nodes| - 1];
      ParseCU(head, nodes, owner) ==
      (match ParseCU(head, prefix, owner)
       case Ok(d) => Dispatch(d, nodes[|nodes| - 1], owner)
       case Err(e) => Err(e))
  {
    var prefix, last := nodes[..|nodes| - 1], nodes[|nodes| - 1];
    assert nodes == prefix + [last];
    WalkInOrder(head, prefix, [last], owner);
    match ParseCU(head, prefix, owner)
    case Ok(d) =>
      assert [last][1..] == [];
      if Dispatch(d, last, owner).Ok? {
        var next := Dispatch(d, last, owner).value;
        assert ParseCU(next, [], owner) == Ok(next);
      }
    case Err(_) =>
  }

  /** The nodes some handler acts on: everything but simple names and
      unrecognised kinds. */
  function Handled(nodes: seq<Node>): (r: seq<Node>)
    ensures |r| <= |nodes|
    ensures forall i :: 0 <= i < |r| ==> !r[i].SimpleName? && !r[i].Unhandled?
  {
    if nodes == [] then []
    else if nodes[0].SimpleName? || nodes[0].Unhandled? then Handled(nodes[1..])
    else [nodes[0]] + Handled(nodes[1..])
  }

  /** Simple names and unrecognised kinds leave the scope as it was:
      removing them from the sibling list changes nothing. */
  lemma {:induction false} SkippedNodesAreInert(head: Doc, nodes: seq<Node>, owner: Owner)
    ensures ParseCU(head, nodes, owner) == ParseCU(head, Handled(nodes), owner)
    decreases |nodes|
  {
    if nodes != [] {
      if nodes[0].SimpleName? || nodes[0].Unhandled? {
        SkippedNodesAreInert(head, nodes[1..], owner);
      } else {
        var h := Handled(nodes);
        assert h[0] == nodes[0] && h[1..] == Handled(nodes[1..]);
        match Dispatch(head, nodes[0], owner)
        case Ok(next) => SkippedNodesAreInert(next, nodes[1..], owner);
        case Err(_) =>
      }
    }
  }

  /** Every node of the tree below `n` that the walk reaches carries what
      its handler needs: spans where they are read (including the begin of
      the import that opens a type's import block), and a field declaration
      as the parent of every declarator. */
  predicate Walkable(n: Node, owner: Owner)
    decreases Size(n), 0
  {
    && Accepted(n, owner)
    && match n
       case ClassDecl(_, _, _, _, _, _, _, children) =>
         AllWalkable(children, ClassOwner) && FirstImportBegins(children)
       case FieldDecl(modifiers, children) => AllWalkable(children, FieldOwner(modifiers))
       case _ => true
  }

  predicate AllWalkable(nodes: seq<Node>, owner: Owner)
    decreases SizeOf(nodes), 1
  {
    nodes == [] || (Walkable(nodes[0], owner) && AllWalkable(nodes[1..], owner))
  }

  /** The walk reports the error of the first sibling whose handler fails,
      whatever follows it: nothing after a failure is visited. */
  lemma WalkStopsAtFirstFailure(head: Doc, a: seq<Node>, n: Node, b: seq<Node>, owner: Owner)
    requires ParseCU(head, a, owner).Ok?
    requires Dispatch(ParseCU(head, a, owner).value, n, owner).Err?
    ensures ParseCU(head, a + [n] + b, owner) == Dispatch(ParseCU(head, a, owner).value, n, owner)
  {
    assert a + [n] + b == a + ([n] + b);
    WalkInOrder(head, a, [n] + b, owner);
    assert ([n] + b)[0] == n;
  }

  /** Node `n`, dispatched in scope `d`, gets past its getters and reaches a
      `get()` on a span it lacks. */
  predicate LacksReadSpan(d: Doc, n: Node) {
    var spanless := (n.PackageDecl? || n.ImportDecl? || n.ClassDecl? || n.ConstructorDecl? || n.MethodDecl?)
                    && (n.begin.None? || n.end.None?);
    if n.PackageDecl? then spanless
    else if n.ImportDecl? then
      if "imports" in d then ImportBlock(d["imports"]) && n.end.None? else spanless
    else if n.ClassDecl? then ObjectOrEmpty(d, "classes").Ok? && spanless
    else if n.ConstructorDecl? then ArrayOrEmpty(d, "constructors").Ok? && spanless
    else if n.MethodDecl? then
      && ObjectOrEmpty(d, "methods").Ok?
      && ArrayOrEmpty(ObjectOrEmpty(d, "methods").value, n.name).Ok?
      && spanless
    else false
  }

  /** A sibling that reaches a `get()` on a missing span ends the whole walk
      with MissingPosition, whatever follows it. */
  lemma MissingSpanAborts(head: Doc, a: seq<Node>, n: Node, b: seq<Node>, owner: Owner)
    requires ParseCU(head, a, owner).Ok?
    requires LacksReadSpan(ParseCU(head, a, owner).value, n)
    ensures ParseCU(head, a + [n] + b, owner) == Err(MissingPosition)
  {
    WalkStopsAtFirstFailure(head, a, n, b, owner);
  }

  /** A missing span or a declarator outside a field, however deep in the
      walked tree, aborts the whole walk: a walk that completes has none. */
  lemma {:induction false} CompletedWalkIsWalkable(head: Doc, nodes: seq<Node>, owner: Owner)
    requires ParseCU(head, nodes, owner).Ok?
    ensures AllWalkable(nodes, owner)
    decreases SizeOf(nodes), 1
  {
    if nodes != [] {
      var next := Dispatch(head, nodes[0], owner).value;
      CompletedDispatchIsWalkable(head, nodes[0], owner);
      CompletedWalkIsWalkable(next, nodes[1..], owner);
    }
  }

  lemma {:induction false} CompletedDispatchIsWalkable(head: Doc, n: Node, owner: Owner)
    requires Dispatch(head, n, owner).Ok?
    ensures Walkable(n, owner)
    decreases Size(n), 0
  {
    match n
    case ClassDecl(_, _, _, _, _, _, _, children) =>
      var header := ClassHeader(n, n.begin.value, n.end.value);
      CompletedWalkIsWalkable(header, children, ClassOwner);
    case FieldDecl(modifiers, children) =>
      CompletedWalkIsWalkable(ObjectOrEmpty(head, "fields").value, children, FieldOwner(modifiers));
    case _ =>
  }
}
